=== FILE: README.md ===
# CapstoneApp transaction ingestion — a Dafny model

This project models the core of CapstoneApp, an Android app that watches Gmail notifications
for transaction records and submits them to a fraud-scoring backend. The model covers three
components.

- **The notification listener service** (`NotificationListener`). The service keeps only
  notifications from the Gmail package and joins their five text fields. It then cuts the JSON
  candidate from the first `{` to the last `}` and turns `&quot;` back into `"`. Repeats inside a
  30 000 ms window are dropped. Without a stored account id the request stops there. Otherwise the
  candidate is wrapped as `{"accountId":"<id>","transaction":<json>}`, and the backend's answer
  becomes one `(title, text)` UI event.
- **The account screen's view model** (`AccountViewModel`). It covers form validation, the
  `isLoggedIn`/`loggedInAccount` session, and persisting that session to the `account_prefs`
  SharedPreferences store. It also covers restoring the session at start-up and logging out.
- **The UI event sink** (`NotificationFeed`). This is `NotificationViewModel`'s append-only list,
  fed by the broadcast receiver in `MainActivity`.

Everything is pure. The state is made of immutable values: the dedupe table (`map<string, int>`),
the view-model record, the preferences store (`map<string, PrefValue>`) and the feed
(`seq<Notification>`). Each transition function returns a result variant together with the new
state. The clock, the preferences store and each backend answer are parameters. Coroutine
launches are taken to run to completion, one at a time. `AppWiring` holds the lemmas that cross
components: the view model writes `account_id` and the listener reads it, and the listener's
broadcasts reach the feed.

Modules: `Nullable` (Kotlin `T?`, `?:`, and string templates that render null as `null`), `Text`
(`isBlank`, `indexOf`, `lastIndexOf`), `Http` (how a Retrofit call ends), `Prefs`,
`NotificationFeed`, `Dedupe`, `NotificationListener`, `AccountViewModel`, `AppWiring`.

## Notes on the code

- The expired entries of the dedupe table are swept only when a candidate is accepted. A
  duplicate returns before the sweep.
- The dedupe key is recorded before the account check. So a candidate that stopped at the
  missing account id still suppresses its repeats.
- Notifications from other packages are not dropped silently. They produce a "Notification Debug"
  event.
- The fixed sample of the test action is already a whole request
  (`{"accountId":"test-id","transaction":{...}}`). Since it is its own candidate, the body sent for
  it nests that wrapper inside a second one.

## Model

| member | source | states |
|---|---|---|
| `Nullable.OrElse` | app/src/main/java/com/cs407/capstone/service/NotificationListener.kt:87-91 | `x ?: fallback` gives the held value, or the fallback exactly when the reference is null |
| `Nullable.Template` | app/src/main/java/com/cs407/capstone/service/NotificationListener.kt:177-185 | a string template renders a held string as itself and a null reference as the four letters `null`, as in `Error: ${response.errorBody()?.string()}` and `Exception: ${e.message}` |
| `Text.IsWhitespace` | app/src/main/java/com/cs407/capstone/viewModel/AccountViewModel.kt:70-72 | the characters `Char.isWhitespace()` accepts on the JVM, by code point |
| `Text.IsBlank` | app/src/main/java/com/cs407/capstone/viewModel/AccountViewModel.kt:70-80 | `isBlank()`: the string is empty or every character is whitespace |
| `Prefs.GetString` | app/src/main/java/com/cs407/capstone/viewModel/AccountViewModel.kt:213-215 | `getString(key, default)` gives the stored string, or the default when the key is absent or holds another type |
| `Prefs.GetFloat` | app/src/main/java/com/cs407/capstone/viewModel/AccountViewModel.kt:216 | `getFloat(key, default)` gives the stored number, or the default when the key is absent or holds another type |
| `Prefs.GetBoolean` | app/src/main/java/com/cs407/capstone/viewModel/AccountViewModel.kt:217 | `getBoolean(key, default)` gives the stored flag, or the default when the key is absent or holds another type |
| `Prefs.Clear` | app/src/main/java/com/cs407/capstone/viewModel/AccountViewModel.kt:252-255 | after `clear()` every string key reads as null and every flag reads as its default |
| `Text.IndexOf` | app/src/main/java/com/cs407/capstone/service/NotificationListener.kt:122 | `indexOf("{")` gives the first position of the character, with no earlier occurrence, or -1 exactly when the character is absent |
| `Text.LastIndexOf` | app/src/main/java/com/cs407/capstone/service/NotificationListener.kt:123 | `lastIndexOf("}")` gives the last position of the character, with no later occurrence, or -1 exactly when it is absent |
| `NotificationListener.Consolidate` | app/src/main/java/com/cs407/capstone/service/NotificationListener.kt:87-94 | the content is title, text, bigText, subText and summaryText at their exact offsets, in that order, separated by single spaces; an absent field contributes "" |
| `NotificationListener.AbsentFieldIsEmpty` | app/src/main/java/com/cs407/capstone/service/NotificationListener.kt:87-91 | an absent text field and an empty one give the same consolidated content |
| `NotificationListener.Filter` | app/src/main/java/com/cs407/capstone/service/NotificationListener.kt:80-105 | a notification goes on to extraction iff its package is exactly `com.google.android.gm`; any other package yields exactly the event ("Notification Debug", "Received notification from: <pkg>") |
| `NotificationListener.ExtractJson` | app/src/main/java/com/cs407/capstone/service/NotificationListener.kt:122-131 | a candidate exists iff some `{` precedes some `}` (so none for no `{`, no `}`, or `}` only before the first `{`); a candidate starts with `{` and ends with `}` |
| `NotificationListener.CandidateIsFirstOpenToLastClose` | app/src/main/java/com/cs407/capstone/service/NotificationListener.kt:122-131 | the candidate is exactly the inclusive slice from the first `{` through the last `}` |
| `NotificationListener.ReversedBracesHaveNoCandidate` | app/src/main/java/com/cs407/capstone/service/NotificationListener.kt:125-128 | the text `}{` has no candidate |
| `NotificationListener.Clean` | app/src/main/java/com/cs407/capstone/service/NotificationListener.kt:131 | `replace("&quot;", "\"")`, left to right and non-overlapping; its contract bounds the result by the input length; `CleanReplacesFirstQuot` states the replacement itself |
| `NotificationListener.CleanReplacesFirstQuot` | app/src/main/java/com/cs407/capstone/service/NotificationListener.kt:131 | the replacement itself: text before the first `&quot;` is kept verbatim, including any `&` in it (so `H&M&quot;}` becomes `H&M"}`), that `&quot;` becomes `"`, and the rest is cleaned in turn |
| `NotificationListener.AmpersandBeforeQuotIsKept` | app/src/main/java/com/cs407/capstone/service/NotificationListener.kt:131 | an `&` that is not part of `&quot;` survives: `H&M&quot;}` cleans to `H&M"}` |
| `NotificationListener.CleanRemovesEveryQuot` | app/src/main/java/com/cs407/capstone/service/NotificationListener.kt:131 | after `replace("&quot;", "\"")` the text contains no `&quot;` |
| `NotificationListener.CleanKeepsQuotFreeText` | app/src/main/java/com/cs407/capstone/service/NotificationListener.kt:131 | text without `&quot;` comes out of the replacement unchanged |
| `NotificationListener.CleanIsIdempotent` | app/src/main/java/com/cs407/capstone/service/NotificationListener.kt:131 | replacing twice gives the same text as replacing once |
| `NotificationListener.Candidate` | app/src/main/java/com/cs407/capstone/service/NotificationListener.kt:122-135 | the dedupe key and payload exist exactly when extraction succeeds, and they never contain `&quot;` |
| `Dedupe.IsDuplicate` | app/src/main/java/com/cs407/capstone/service/NotificationListener.kt:139-140 | a key is a duplicate iff it is stamped and `now - stamp < 30000` |
| `Dedupe.Sweep` | app/src/main/java/com/cs407/capstone/service/NotificationListener.kt:146 | the sweep keeps exactly the entries with `now - t <= 30000`, with their stamps unchanged |
| `Dedupe.CheckAndRecord` | app/src/main/java/com/cs407/capstone/service/NotificationListener.kt:138-149 | a key stamped at t0 with `now - t0 < 30000` is a duplicate, and then the table is left exactly as it was. Otherwise the other entries older than 30000 ms are removed, the rest are kept unchanged, and the key maps to `now`. After acceptance every entry's age is at most 30000 |
| `Dedupe.RepeatWithinWindowIsDropped` | app/src/main/java/com/cs407/capstone/service/NotificationListener.kt:139-143 | a key repeated less than 30000 ms after its acceptance is dropped, with no refresh of its stamp |
| `Dedupe.RepeatAfterWindowIsAccepted` | app/src/main/java/com/cs407/capstone/service/NotificationListener.kt:140-149 | a key repeated 30000 ms or more after its acceptance is accepted again, including at exactly 30000 ms |
| `NotificationListener.RequestBody` | app/src/main/java/com/cs407/capstone/service/NotificationListener.kt:162 | the body has the head `{"accountId":"`, ends in `}`, and its length accounts for the id and the payload exactly |
| `NotificationListener.ParseRequestBody` | app/src/main/java/com/cs407/capstone/service/NotificationListener.kt:162 | a body read back into an id and a payload rebuilds to the same body, and the id read back holds no `"` |
| `NotificationListener.RequestBodyRoundTrip` | app/src/main/java/com/cs407/capstone/service/NotificationListener.kt:162 | for an id without `"`, the id and the JSON payload are recovered from the body verbatim |
| `NotificationListener.UnescapedIdIsAmbiguous` | app/src/main/java/com/cs407/capstone/service/NotificationListener.kt:162 | because the id is inserted without escaping, two different (id, payload) pairs can produce the same body |
| `NotificationListener.OutcomeEvent` | app/src/main/java/com/cs407/capstone/service/NotificationListener.kt:165-189 | the title is "Transaction Processed" iff the response is successful, with the fixed success text. A non-success gives "Transaction Failed" with `Error: <errorBody or null>`. An exception gives "Transaction Failed" with `Exception: <message or null>` |
| `NotificationListener.ProcessGmailNotification` | app/src/main/java/com/cs407/capstone/service/NotificationListener.kt:119-193 | the result is NoJson iff there is no candidate, and the table is then untouched. It is Duplicate iff the candidate is still inside its window, and the table is then untouched. It is NoAccount iff the key was accepted but no `account_id` is stored; the key stays recorded. Otherwise it is Request with exactly the wrapped body. Exactly one event is emitted, and only for a Request |
| `NotificationListener.RepeatDroppedEvenWithoutAccount` | app/src/main/java/com/cs407/capstone/service/NotificationListener.kt:139-158 | once a candidate passed dedupe, a repeat inside the window is a duplicate with no event, even if the first delivery stopped at the missing account |
| `NotificationListener.RepeatAfterWindowIsSubmitted` | app/src/main/java/com/cs407/capstone/service/NotificationListener.kt:140-162 | a submitted candidate repeated 30000 ms or more later is submitted again when an account id is stored |
| `NotificationListener.WholeCandidateIsSubmitted` | app/src/main/java/com/cs407/capstone/service/NotificationListener.kt:135-168 | text that is its own candidate and is not a recent duplicate, with an account id stored, is stamped with `now` and submitted verbatim under that id, with one outcome event |
| `NotificationListener.OnNotificationPosted` | app/src/main/java/com/cs407/capstone/service/NotificationListener.kt:75-106 | another package leaves the table unchanged and emits only the debug event; a Gmail notification runs the pipeline on its consolidated content |
| `NotificationListener.OnStartCommand` | app/src/main/java/com/cs407/capstone/service/NotificationListener.kt:61-69 | the test action runs the pipeline on the fixed sample, bypassing the filter; any other action changes nothing and emits nothing |
| `NotificationListener.BracedTextIsOwnCandidate` | app/src/main/java/com/cs407/capstone/service/NotificationListener.kt:122-131 | text that opens with `{`, closes with `}` and has no `&` passes extraction and cleaning unchanged |
| `NotificationListener.TestSampleIsWholeCandidate` | app/src/main/java/com/cs407/capstone/service/NotificationListener.kt:65 | the fixed sample is its own candidate: it starts with `{`, ends with `}` and holds no `&quot;` |
| `NotificationListener.Listen` | app/src/main/java/com/cs407/capstone/service/NotificationListener.kt:75-106 | a run over posted notifications emits at most one event per notification |
| `NotificationListener.PostingKeepsYoungStamp` | app/src/main/java/com/cs407/capstone/service/NotificationListener.kt:139-149 | no posted notification evicts or refreshes a stamp younger than the window |
| `NotificationListener.StampSurvivesListening` | app/src/main/java/com/cs407/capstone/service/NotificationListener.kt:139-149 | a stamp survives unchanged through any sequence of notifications that all arrive inside its window |
| `NotificationListener.RepostInsideWindowIsDropped` | app/src/main/java/com/cs407/capstone/service/NotificationListener.kt:139-158 | a Gmail notification reposted inside the window of its accepted candidate is dropped, whatever other notifications arrived in between |
| `NotificationFeed.AddNotification` | app/src/main/java/com/cs407/capstone/viewModel/NotificationViewModel.kt:11-13 | the list grows by exactly one, the old list is a prefix of the new one, the new element is last, and it is counted once more |
| `NotificationFeed.AddTwiceStoresTwice` | app/src/main/java/com/cs407/capstone/viewModel/NotificationViewModel.kt:11-13 | there is no deduplication: an identical pair added twice is stored twice |
| `NotificationFeed.OnReceive` | app/src/main/java/com/cs407/capstone/MainActivity.kt:51-56 | a received broadcast appends one notification, with a missing title or text read as "" |
| `NotificationFeed.DeliverAll` | app/src/main/java/com/cs407/capstone/MainActivity.kt:50-65 | `LocalBroadcastManager` hands each broadcast, in order, to the registered receiver: the feed grows by one entry per broadcast and keeps its old entries as a prefix |
| `NotificationFeed.DeliverAllAppends` | app/src/main/java/com/cs407/capstone/MainActivity.kt:51-56 | delivering a batch of broadcasts appends exactly those events, in order |
| `AccountViewModel.ValidateCreateAccountFields` | app/src/main/java/com/cs407/capstone/viewModel/AccountViewModel.kt:69-77 | the result is false iff one of the seven required fields is blank; then errorMessage becomes "Please fill in all required fields." and nothing else changes |
| `AccountViewModel.OptionalFieldsNeverChecked` | app/src/main/java/com/cs407/capstone/viewModel/AccountViewModel.kt:69-77 | gender, dateOfBirth, job, street, city, state, zip and address never change the validation verdict |
| `AccountViewModel.ValidateLoginFields` | app/src/main/java/com/cs407/capstone/viewModel/AccountViewModel.kt:79-85 | the result is false iff the identifier or the password is blank; then errorMessage becomes "Please enter your username/email and password." and nothing else changes |
| `AccountViewModel.SaveAccount` | app/src/main/java/com/cs407/capstone/viewModel/AccountViewModel.kt:197-206 | the five session keys read back the saved id, username, phone, threshold and `true`, every other key is kept, and no other key is added |
| `AccountViewModel.LoadSavedAccount` | app/src/main/java/com/cs407/capstone/viewModel/AccountViewModel.kt:212-226 | the session is restored iff `is_logged_in` is true and both `account_id` and `username` are present. The account has no email, a missing phone reads as "", and nothing else changes. `isLoggedIn == (loggedInAccount != null)` is preserved |
| `AccountViewModel.Init` | app/src/main/java/com/cs407/capstone/viewModel/AccountViewModel.kt:35-67 | the initial state is consistent, not loading, has no error, and is logged in iff the store holds a session; without a stored session it is exactly the property initialisers |
| `AccountViewModel.SaveThenLoadRestores` | app/src/main/java/com/cs407/capstone/viewModel/AccountViewModel.kt:197-226 | saving then loading restores `Account(id, user, null)`, the phone and the threshold, with isLoggedIn true |
| `AccountViewModel.BeginRequest` | app/src/main/java/com/cs407/capstone/viewModel/AccountViewModel.kt:98-99 | a launched request sets isLoading, clears the error, and changes nothing else |
| `AccountViewModel.CreateAccount` | app/src/main/java/com/cs407/capstone/viewModel/AccountViewModel.kt:94-136 | invalid fields change only the error message. Success with a body logs in as (id, typed username, typed email) and clears the error. A non-success or an exception (including a null body) keeps the session and sets its message. isLoading ends false. The form, the phone number and the threshold are never changed. The session invariant is preserved |
| `AccountViewModel.Login` | app/src/main/java/com/cs407/capstone/viewModel/AccountViewModel.kt:138-164 | invalid fields change only the error message. Success logs in without email, takes the phone (or "") and the threshold, and saves the session. A non-success sets "Invalid credentials. Please try again." and keeps the session and the store. isLoading ends false. The form fields are never changed. The invariant is preserved |
| `AccountViewModel.UpdateAccountSettings` | app/src/main/java/com/cs407/capstone/viewModel/AccountViewModel.kt:166-191 | with no account this is a no-op on state and store. Otherwise the session is kept and isLoading ends false. Success re-saves the account id, username, phone and threshold. Each failure sets its message and leaves the store alone. Only the loading flag and the message ever change on screen |
| `AccountViewModel.Logout` | app/src/main/java/com/cs407/capstone/viewModel/AccountViewModel.kt:228-256 | logs out, resets every form string to "", threshold to 0.0 and smsOptIn to true, clears the error and empties the store |
| `AccountViewModel.LogoutRestoresDefaults` | app/src/main/java/com/cs407/capstone/viewModel/AccountViewModel.kt:35-60 | the state after logout is the initial state, except for the untouched loading flag |
| `AccountViewModel.LogoutThenLoadRestoresNothing` | app/src/main/java/com/cs407/capstone/viewModel/AccountViewModel.kt:212-256 | after logout, loading restores nothing and a fresh start is logged out |
| `AccountViewModel.LoginSurvivesRestart` | app/src/main/java/com/cs407/capstone/viewModel/AccountViewModel.kt:147-153 | after a successful login, a fresh start restores the same account, phone and threshold |
| `AppWiring.LoginEnablesSubmission` | app/src/main/java/com/cs407/capstone/service/NotificationListener.kt:151-162 | after a successful login, a new Gmail candidate is submitted under the logged-in account id |
| `AppWiring.LogoutDisablesSubmission` | app/src/main/java/com/cs407/capstone/service/NotificationListener.kt:151-158 | after logout no request is built and no event is emitted, whatever the notification |
| `AppWiring.CreatedAccountIsInvisibleToListener` | app/src/main/java/com/cs407/capstone/viewModel/AccountViewModel.kt:123-126 | creating an account logs the screen in but writes nothing. So for any store holding no account id, the next start is logged out and the listener builds no request and emits no event |
| `AppWiring.SettingsUpdateKeepsListenerAccount` | app/src/main/java/com/cs407/capstone/viewModel/AccountViewModel.kt:179-181 | a successful settings update re-saves the same account id for the listener |
| `AppWiring.PostedNotificationReachesFeed` | app/src/main/java/com/cs407/capstone/MainActivity.kt:51-56 | the events of one posted notification reach the feed in order: the debug line for another app, the success line for a successful submission, at most one line in all |

## Left out

- The dedupe key is the cleaned candidate itself, not its `String.hashCode()`. Hash collisions are not modelled.
- Concurrency is not modelled. The source launches coroutines on `Dispatchers.IO` and shares the unsynchronised `recentRequests` map between them. Every launch here runs to completion before the next event.
- `System.currentTimeMillis()` is the `now` parameter. Its `Long` width is not modelled: times are unbounded integers.
- Logging (`Log.d`/`Log.e`) is left out because it has no observable effect on the state.
- `Places.initialize` in `onCreate` is left out. It is platform set-up with no effect on the pipeline.
- Broadcast delivery is not modelled as a platform channel. `LocalBroadcastManager` becomes the list of events the listener returns, and `DeliverAll` hands them to the feed.
- The error body is read twice in the source, once for the event and once for the log. Only the first read matters for the event, and that is the one modelled.
- The outer `catch` of `processGmailNotification` is not modelled: nothing in the model throws. A stored `account_id` of another type would throw `ClassCastException` in Android. Here the typed getters read such a value as absent, and only `saveAccount` writes these keys.
- SharedPreferences is a map. The asynchronous `apply()` write to disk is not modelled.
- `fraudThreshold` is a `real`. The `Double` to `Float` narrowing on save, and the widening back on load, are not modelled.
- The transitions return the state after each coroutine finishes. `BeginRequest` is the in-flight state, with the loading flag set.
- The request objects built for `createAccount`, `login` and `updateAccountSettings` are transport only. They are not modelled; only the response fields the view model reads are inputs.
- Compose screens, navigation, Retrofit and OkHttp clients, DTO classes, `PredictViewModel` and the build configuration are not part of this model.
- JSON parsing of the candidate is not modelled, because the listener never parses it.
- Escaping of the account id in the request body is not modelled: the body is built exactly as written.
- Strings are sequences of Unicode scalar values, whereas Kotlin strings are UTF-16 code units. The positions `IndexOf` and `LastIndexOf` return differ from Kotlin's when a supplementary character precedes the brace, and an unpaired surrogate cannot be represented. The slices, and so every body and event, are the same.
- The Unicode whitespace set behind `isBlank` is listed by code point. It follows the JVM's `Character.isWhitespace` and `Character.isSpaceChar`.

=== FILE: account_view_model.dfy ===
/**
 The account screen's state holder: form fields, the login session, the
 loading flag and the error message, with the session persisted to the
 "account_prefs" store. Each backend call is replaced by its answer, given
 as an input; `viewModelScope.launch` runs to completion in place.
 */
module AccountViewModel {
  import opened Nullable
  import opened Text
  import opened Http
  import opened Prefs

  datatype Account = Account(accountId: string, username: string, email: Nullable<string>)

  /** The fields of the create-account response the view model reads. */
  datatype CreateAccountBody = CreateAccountBody(accountId: string)

  /** The fields of the login response the view model reads. */
  datatype LoginBody = LoginBody(accountId: string, username: string,
                                 phoneNumber: Nullable<string>, fraudThreshold: real)

  datatype AccountState = AccountState(
    // create-account and settings form
    username: string, email: string, password: string,
    firstName: string, lastName: string, ccNum: string,
    gender: string, dateOfBirth: string, job: string,
    street: string, city: string, state: string, zip: string, address: string,
    phoneNumber: string, smsOptIn: bool,
    // login form
    identifier: string, loginPassword: string,
    // session
    isLoggedIn: bool, loggedInAccount: Nullable<Account>, fraudThreshold: real,
    isLoading: bool, errorMessage: Nullable<string>)

  const RequiredFieldsMessage: string := "Please fill in all required fields."
  const LoginFieldsMessage: string := "Please enter your username/email and password."
  const CreateFailedMessage: string := "Error creating account. Please try again."
  const CreateThrewMessage: string := "An unexpected error occurred. Please check your network connection."
  const InvalidCredentialsMessage: string := "Invalid credentials. Please try again."
  const LoginThrewMessage: string := "Network error. Please check your connection and try again."
  const SettingsUpdatedMessage: string := "✅ Settings updated successfully!"
  const SettingsFailedMessage: string := "❌ Failed to update settings"
  const SettingsThrewMessage: string := "❌ Network error. Please try again."

  /** The property initialisers: empty form, SMS opt-in on, logged out, no error. */
  const Defaults: AccountState := AccountState(
    "", "", "", "", "", "", "", "", "", "", "", "", "", "", "", true,
    "", "",
    false, Null, 0.0, false, Null)

  /** `isLoggedIn` is true exactly when an account is held. */
  predicate SessionConsistent(s: AccountState) {
    s.isLoggedIn == s.loggedInAccount.NonNull?
  }

  /** The form fields `logout` resets, all equal to their initial values. */
  predicate FormIsReset(s: AccountState) {
    && s.username == "" && s.email == "" && s.password == ""
    && s.firstName == "" && s.lastName == "" && s.ccNum == ""
    && s.gender == "" && s.dateOfBirth == "" && s.job == ""
    && s.street == "" && s.city == "" && s.state == "" && s.zip == "" && s.address == ""
    && s.phoneNumber == "" && s.smsOptIn
    && s.identifier == "" && s.loginPassword == ""
  }

  /** The session part of the state: everything a backend answer may change. */
  predicate SameSession(s: AccountState, t: AccountState) {
    && s.isLoggedIn == t.isLoggedIn && s.loggedInAccount == t.loggedInAccount
    && s.phoneNumber == t.phoneNumber && s.fraudThreshold == t.fraudThreshold
  }

  // ---------------------------------------------------------------------
  // Validation
  // ---------------------------------------------------------------------

  /** The seven fields account creation requires. */
  predicate RequiredFieldsFilled(s: AccountState) {
    && !IsBlank(s.username) && !IsBlank(s.email) && !IsBlank(s.password)
    && !IsBlank(s.firstName) && !IsBlank(s.lastName) && !IsBlank(s.ccNum)
    && !IsBlank(s.phoneNumber)
  }

  datatype Validated = Validated(ok: bool, state: AccountState)

  /**
   `validateCreateAccountFields`: fails exactly when a required field is
   blank, and then only the error message changes.
   */
  function ValidateCreateAccountFields(s: AccountState): (r: Validated)
    ensures r.ok <==> RequiredFieldsFilled(s)
    ensures r.ok ==> r.state == s
    ensures !r.ok ==> r.state == s.(errorMessage := NonNull(RequiredFieldsMessage))
  {
    if IsBlank(s.username) || IsBlank(s.email) || IsBlank(s.password)
       || IsBlank(s.firstName) || IsBlank(s.lastName) || IsBlank(s.ccNum)
       || IsBlank(s.phoneNumber)
    then Validated(false, s.(errorMessage := NonNull(RequiredFieldsMessage)))
    else Validated(true, s)
  }

  /** The optional fields never decide whether account creation may proceed. */
  lemma OptionalFieldsNeverChecked(s: AccountState, gender: string, dateOfBirth: string,
                                   job: string, street: string, city: string,
                                   state: string, zip: string, address: string)
    ensures ValidateCreateAccountFields(s).ok ==
            ValidateCreateAccountFields(s.(gender := gender, dateOfBirth := dateOfBirth,
                                           job := job, street := street, city := city,
                                           state := state, zip := zip, address := address)).ok
  {
  }

  /**
   `validateLoginFields`: fails exactly when the identifier or the password
   is blank, and then only the error message changes.
   */
  function ValidateLoginFields(s: AccountState): (r: Validated)
    ensures r.ok <==> !IsBlank(s.identifier) && !IsBlank(s.loginPassword)
    ensures r.ok ==> r.state == s
    ensures !r.ok ==> r.state == s.(errorMessage := NonNull(LoginFieldsMessage))
  {
    if IsBlank(s.identifier) || IsBlank(s.loginPassword)
    then Validated(false, s.(errorMessage := NonNull(LoginFieldsMessage)))
    else Validated(true, s)
  }

  // ---------------------------------------------------------------------
  // The persisted session
  // ---------------------------------------------------------------------

  /** `saveAccount`: writes the five session keys, keeps every other key and adds no other. */
  function SaveAccount(prefs: Store, accountId: string, username: string,
                       phoneNumber: string, fraudThreshold: real): (r: Store)
    ensures GetString(r, AccountIdKey, Null) == NonNull(accountId)
    ensures GetString(r, UsernameKey, Null) == NonNull(username)
    ensures GetString(r, PhoneNumberKey, Null) == NonNull(phoneNumber)
    ensures GetFloat(r, FraudThresholdKey, 0.0) == fraudThreshold
    ensures GetBoolean(r, IsLoggedInKey, false)
    ensures forall k :: k in prefs && k !in {AccountIdKey, UsernameKey, PhoneNumberKey,
                                               FraudThresholdKey, IsLoggedInKey}
                        ==> k in r && r[k] == prefs[k]
    ensures r.Keys == prefs.Keys + {AccountIdKey, UsernameKey, PhoneNumberKey,
                                    FraudThresholdKey, IsLoggedInKey}
  {
    prefs[AccountIdKey := StringPref(accountId)]
         [UsernameKey := StringPref(username)]
         [PhoneNumberKey := StringPref(phoneNumber)]
         [FraudThresholdKey := FloatPref(fraudThreshold)]
         [IsLoggedInKey := BooleanPref(true)]
  }

  /** True when the store holds a session `loadSavedAccount` would restore. */
  predicate HasSavedSession(prefs: Store) {
    && GetBoolean(prefs, IsLoggedInKey, false)
    && GetString(prefs, AccountIdKey, Null).NonNull?
    && GetString(prefs, UsernameKey, Null).NonNull?
  }

  /**
   `loadSavedAccount`: restores the session exactly when "is_logged_in" is
   true and both the id and the username are stored; the restored account
   has no email, and a missing phone number reads as "".
   */
  function LoadSavedAccount(s: AccountState, prefs: Store): (r: AccountState)
    ensures !HasSavedSession(prefs) ==> r == s
    ensures HasSavedSession(prefs) ==>
              && r.isLoggedIn
              && r.loggedInAccount == NonNull(Account(GetString(prefs, AccountIdKey, Null).value,
                                                      GetString(prefs, UsernameKey, Null).value,
                                                      Null))
              && r.phoneNumber == GetString(prefs, PhoneNumberKey, NonNull("")).value
              && r.fraudThreshold == GetFloat(prefs, FraudThresholdKey, 0.0)
              && r == s.(isLoggedIn := r.isLoggedIn, loggedInAccount := r.loggedInAccount,
                         phoneNumber := r.phoneNumber, fraudThreshold := r.fraudThreshold)
    ensures SessionConsistent(s) ==> SessionConsistent(r)
  {
    var savedAccountId := GetString(prefs, AccountIdKey, Null);
    var savedUsername := GetString(prefs, UsernameKey, Null);
    var savedPhoneNumber := GetString(prefs, PhoneNumberKey, NonNull(""));
    var savedFraudThreshold := GetFloat(prefs, FraudThresholdKey, 0.0);
    var savedIsLoggedIn := GetBoolean(prefs, IsLoggedInKey, false);
    if savedIsLoggedIn && savedAccountId.NonNull? && savedUsername.NonNull? then
      s.(loggedInAccount := NonNull(Account(savedAccountId.value, savedUsername.value, Null)),
         phoneNumber := savedPhoneNumber.OrElse(""),
         fraudThreshold := savedFraudThreshold,
         isLoggedIn := true)
    else s
  }

  /** The `init` block: the initial values, then whatever session the store holds. */
  function Init(prefs: Store): (r: AccountState)
    ensures SessionConsistent(r)
    ensures r.isLoggedIn <==> HasSavedSession(prefs)
    ensures !HasSavedSession(prefs) ==> r == Defaults
    ensures !r.isLoading && r.errorMessage == Null
  {
    LoadSavedAccount(Defaults, prefs)
  }

  /** Saving then loading restores the account (without email), the phone and the threshold. */
  lemma SaveThenLoadRestores(s: AccountState, prefs: Store, accountId: string, username: string,
                             phoneNumber: string, fraudThreshold: real)
    ensures var r := LoadSavedAccount(s, SaveAccount(prefs, accountId, username, phoneNumber, fraudThreshold));
            && r.isLoggedIn
            && r.loggedInAccount == NonNull(Account(accountId, username, Null))
            && r.phoneNumber == phoneNumber
            && r.fraudThreshold == fraudThreshold
  {
  }

  // ---------------------------------------------------------------------
  // Backend calls
  // ---------------------------------------------------------------------

  /** The start of every launched request: loading, error cleared, nothing else touched. */
  function BeginRequest(s: AccountState): (r: AccountState)
    ensures r.isLoading && r.errorMessage == Null && SameSession(s, r)
    ensures r == s.(isLoading := r.isLoading, errorMessage := r.errorMessage)
  {
    s.(isLoading := true, errorMessage := Null)
  }

  /**
   `createAccount`: after validation, a successful response with a body logs
   in as the typed username and email; it does NOT persist the session. A
   null body fails the `!!` and lands in the exception branch. The form,
   the phone number and the threshold are never touched.
   */
  function CreateAccount(s: AccountState, response: Response<CreateAccountBody>): (r: AccountState)
    ensures !RequiredFieldsFilled(s) ==> r == s.(errorMessage := NonNull(RequiredFieldsMessage))
    ensures RequiredFieldsFilled(s) ==> !r.isLoading
    ensures r == s.(isLoggedIn := r.isLoggedIn, loggedInAccount := r.loggedInAccount,
                    isLoading := r.isLoading, errorMessage := r.errorMessage)
    ensures RequiredFieldsFilled(s) && response.Successful? && response.body.NonNull? ==>
              && r.isLoggedIn && r.errorMessage == Null
              && r.loggedInAccount == NonNull(Account(response.body.value.accountId,
                                                      s.username, NonNull(s.email)))
    ensures RequiredFieldsFilled(s) && response.Unsuccessful? ==>
              SameSession(s, r) && r.errorMessage == NonNull(CreateFailedMessage)
    ensures RequiredFieldsFilled(s) && (response.Threw? || response == Successful(Null)) ==>
              SameSession(s, r) && r.errorMessage == NonNull(CreateThrewMessage)
    ensures SessionConsistent(s) ==> SessionConsistent(r)
  {
    var v := ValidateCreateAccountFields(s);
    if !v.ok then v.state
    else
      var s1 := BeginRequest(s);
      var s2 :=
        match response
        case Successful(NonNull(body)) =>
          s1.(loggedInAccount := NonNull(Account(body.accountId, s1.username, NonNull(s1.email))),
              isLoggedIn := true)
        case Unsuccessful(_) => s1.(errorMessage := NonNull(CreateFailedMessage))
        case _ => s1.(errorMessage := NonNull(CreateThrewMessage));
      s2.(isLoading := false)
  }

  datatype Persisted = Persisted(state: AccountState, prefs: Store)

  /**
   `login`: after validation, a successful response with a body logs in
   (without email), takes the phone number (or "") and threshold from the
   response and saves the session; otherwise only the error message and the
   loading flag change. The form fields are never touched.
   */
  function Login(s: AccountState, prefs: Store, response: Response<LoginBody>): (r: Persisted)
    ensures IsBlank(s.identifier) || IsBlank(s.loginPassword) ==>
              r == Persisted(s.(errorMessage := NonNull(LoginFieldsMessage)), prefs)
    ensures !IsBlank(s.identifier) && !IsBlank(s.loginPassword) ==> !r.state.isLoading
    ensures r.state == s.(isLoggedIn := r.state.isLoggedIn, loggedInAccount := r.state.loggedInAccount,
                          phoneNumber := r.state.phoneNumber, fraudThreshold := r.state.fraudThreshold,
                          isLoading := r.state.isLoading, errorMessage := r.state.errorMessage)
    ensures !IsBlank(s.identifier) && !IsBlank(s.loginPassword)
            && response.Successful? && response.body.NonNull? ==>
              var b := response.body.value;
              && r.state.isLoggedIn && r.state.errorMessage == Null
              && r.state.loggedInAccount == NonNull(Account(b.accountId, b.username, Null))
              && r.state.phoneNumber == b.phoneNumber.OrElse("")
              && r.state.fraudThreshold == b.fraudThreshold
              && r.prefs == SaveAccount(prefs, b.accountId, b.username,
                                        b.phoneNumber.OrElse(""), b.fraudThreshold)
    ensures !IsBlank(s.identifier) && !IsBlank(s.loginPassword) && response.Unsuccessful? ==>
              SameSession(s, r.state) && r.prefs == prefs
              && r.state.errorMessage == NonNull(InvalidCredentialsMessage)
    ensures !IsBlank(s.identifier) && !IsBlank(s.loginPassword)
            && (response.Threw? || response == Successful(Null)) ==>
              SameSession(s, r.state) && r.prefs == prefs
              && r.state.errorMessage == NonNull(LoginThrewMessage)
    ensures SessionConsistent(s) ==> SessionConsistent(r.state)
  {
    var v := ValidateLoginFields(s);
    if !v.ok then Persisted(v.state, prefs)
    else
      var s1 := BeginRequest(s);
      var p2 :=
        match response
        case Successful(NonNull(b)) =>
          var phone := b.phoneNumber.OrElse("");
          Persisted(s1.(loggedInAccount := NonNull(Account(b.accountId, b.username, Null)),
                        phoneNumber := phone,
                        fraudThreshold := b.fraudThreshold,
                        isLoggedIn := true),
                    SaveAccount(prefs, b.accountId, b.username, phone, b.fraudThreshold))
        case Unsuccessful(_) => Persisted(s1.(errorMessage := NonNull(InvalidCredentialsMessage)), prefs)
        case _ => Persisted(s1.(errorMessage := NonNull(LoginThrewMessage)), prefs);
      Persisted(p2.state.(isLoading := false), p2.prefs)
  }

  /**
   `updateAccountSettings`: nothing happens without a logged-in account;
   otherwise a successful answer re-saves the session with the current
   phone number and threshold. Only the loading flag and the message change
   on screen.
   */
  function UpdateAccountSettings(s: AccountState, prefs: Store, response: Response<()>): (r: Persisted)
    ensures s.loggedInAccount.Null? ==> r == Persisted(s, prefs)
    ensures s.loggedInAccount.NonNull? ==> SameSession(s, r.state) && !r.state.isLoading
    ensures r.state == s.(isLoading := r.state.isLoading, errorMessage := r.state.errorMessage)
    ensures s.loggedInAccount.NonNull? && response.Successful? ==>
              var a := s.loggedInAccount.value;
              && r.state.errorMessage == NonNull(SettingsUpdatedMessage)
              && r.prefs == SaveAccount(prefs, a.accountId, a.username, s.phoneNumber, s.fraudThreshold)
    ensures s.loggedInAccount.NonNull? && response.Unsuccessful? ==>
              r.state.errorMessage == NonNull(SettingsFailedMessage) && r.prefs == prefs
    ensures s.loggedInAccount.NonNull? && response.Threw? ==>
              r.state.errorMessage == NonNull(SettingsThrewMessage) && r.prefs == prefs
    ensures SessionConsistent(s) ==> SessionConsistent(r.state)
  {
    match s.loggedInAccount
    case Null => Persisted(s, prefs)
    case NonNull(account) =>
      var s1 := BeginRequest(s);
      var p2 :=
        match response
        case Successful(_) =>
          Persisted(s1.(errorMessage := NonNull(SettingsUpdatedMessage)),
                    SaveAccount(prefs, account.accountId, s1.loggedInAccount.value.username,
                                s1.phoneNumber, s1.fraudThreshold))
        case Unsuccessful(_) => Persisted(s1.(errorMessage := NonNull(SettingsFailedMessage)), prefs)
        case Threw(_) => Persisted(s1.(errorMessage := NonNull(SettingsThrewMessage)), prefs);
      Persisted(p2.state.(isLoading := false), p2.prefs)
  }

  /**
   `logout`: logged out, every form field back to its initial value, the
   error cleared and the store emptied; only the loading flag is untouched.
   */
  function Logout(s: AccountState, prefs: Store): (r: Persisted)
    ensures !r.state.isLoggedIn && r.state.loggedInAccount.Null?
    ensures FormIsReset(r.state) && r.state.fraudThreshold == 0.0 && r.state.errorMessage == Null
    ensures r.state.isLoading == s.isLoading
    ensures r.prefs == map[]
  {
    var s1 := s.(isLoggedIn := false, loggedInAccount := Null,
                 username := "", email := "", password := "", firstName := "", lastName := "",
                 ccNum := "", gender := "", dateOfBirth := "", job := "",
                 street := "", city := "", state := "", zip := "", address := "",
                 phoneNumber := "", fraudThreshold := 0.0, smsOptIn := true,
                 identifier := "", loginPassword := "", errorMessage := Null);
    Persisted(s1, Clear(prefs))
  }

  /** Logging out returns to the initial state, whatever the loading flag. */
  lemma LogoutRestoresDefaults(s: AccountState, prefs: Store)
    ensures Logout(s, prefs).state == Defaults.(isLoading := s.isLoading)
  {
  }

  /** After logout nothing is restored, now or at the next start. */
  lemma LogoutThenLoadRestoresNothing(s: AccountState, prefs: Store, t: AccountState)
    ensures LoadSavedAccount(t, Logout(s, prefs).prefs) == t
    ensures !Init(Logout(s, prefs).prefs).isLoggedIn
  {
  }

  /** A login that succeeds survives a restart: the next start restores that account. */
  lemma LoginSurvivesRestart(s: AccountState, prefs: Store, b: LoginBody)
    requires !IsBlank(s.identifier) && !IsBlank(s.loginPassword)
    ensures var r := Login(s, prefs, Successful(NonNull(b)));
            var restarted := Init(r.prefs);
            && restarted.isLoggedIn
            && restarted.loggedInAccount == r.state.loggedInAccount
            && restarted.phoneNumber == r.state.phoneNumber
            && restarted.fraudThreshold == r.state.fraudThreshold
  {
  }
}

=== FILE: app_wiring.dfy ===
/**
 How the three components meet in the app: the account view model and the
 listener service share the "account_prefs" store (the view model writes
 "account_id", the listener reads it), and the listener's broadcasts reach
 the notification feed through the receiver registered in `MainActivity`.
 */
module AppWiring {
  import opened Nullable
  import opened Http
  import opened Prefs
  import opened Dedupe
  import opened NotificationFeed
  import opened NotificationListener
  import opened AccountViewModel

  /** After a successful login, a new Gmail candidate is submitted under the logged-in account id. */
  lemma LoginEnablesSubmission(s: AccountState, prefs: Store, b: LoginBody,
                               cache: Cache, text: string, now: int, response: Response<()>)
    requires !Text.IsBlank(s.identifier) && !Text.IsBlank(s.loginPassword)
    requires Candidate(text).NonNull? && !IsDuplicate(cache, Candidate(text).value, now)
    ensures var p := Login(s, prefs, Successful(NonNull(b))).prefs;
            ProcessGmailNotification(cache, text, now, p, response).result
              == Request(RequestBody(b.accountId, Candidate(text).value))
  {
    var p := Login(s, prefs, Successful(NonNull(b))).prefs;
    assert GetString(p, AccountIdKey, Null) == NonNull(b.accountId);
  }

  /** After logout no request is ever built, whatever the notification. */
  lemma LogoutDisablesSubmission(s: AccountState, prefs: Store,
                                 cache: Cache, text: string, now: int, response: Response<()>)
    ensures var p := Logout(s, prefs).prefs;
            var r := ProcessGmailNotification(cache, text, now, p, response);
            !r.result.Request? && r.events == []
  {
    var p := Logout(s, prefs).prefs;
    assert GetString(p, AccountIdKey, Null) == Null;
  }

  /**
   Creating an account logs the screen in but writes nothing to the store.
   So, for any store holding no account id, the next start is logged out
   and the listener builds no request and emits no event.
   */
  lemma CreatedAccountIsInvisibleToListener(s: AccountState, body: CreateAccountBody, prefs: Store,
                                            cache: Cache, text: string, now: int, response: Response<()>)
    requires AccountViewModel.RequiredFieldsFilled(s)
    requires GetString(prefs, AccountIdKey, Null).Null?
    ensures CreateAccount(s, Successful(NonNull(body))).isLoggedIn
    ensures !Init(prefs).isLoggedIn
    ensures var r := ProcessGmailNotification(cache, text, now, prefs, response);
            !r.result.Request? && r.events == []
  {
  }

  /**
   A settings update that succeeds re-saves the same account id, so the
   listener keeps submitting under it.
   */
  lemma SettingsUpdateKeepsListenerAccount(s: AccountState, prefs: Store)
    requires s.loggedInAccount.NonNull?
    ensures var p := UpdateAccountSettings(s, prefs, Successful(NonNull(()))).prefs;
            GetString(p, AccountIdKey, Null) == NonNull(s.loggedInAccount.value.accountId)
  {
  }

  /**
   Every broadcast of one posted notification lands in the feed, in order:
   the debug line for another app, the outcome line for a submitted
   candidate, and nothing otherwise.
   */
  lemma PostedNotificationReachesFeed(feed: Feed, cache: Cache, n: PostedNotification, now: int,
                                      prefs: Store, response: Response<()>)
    ensures var r := OnNotificationPosted(cache, n, now, prefs, response);
            && DeliverAll(feed, r.events) == feed + r.events
            && |r.events| <= 1
            && (n.packageName != GmailPackage ==>
                  DeliverAll(feed, r.events)
                    == feed + [Notification(DebugTitle, "Received notification from: " + n.packageName)])
            && (n.packageName == GmailPackage
                && ProcessGmailNotification(cache, Consolidate(n), now, prefs, response).result.Request?
                && response.Successful? ==>
                  DeliverAll(feed, r.events) == feed + [Notification(ProcessedTitle, ProcessedText)])
  {
    var r := OnNotificationPosted(cache, n, now, prefs, response);
    DeliverAllAppends(feed, r.events);
  }
}

=== FILE: dedupe.dfy ===
/**
 The listener's `recentRequests` table: a map from request key to the
 time (in milliseconds) the key was last accepted, with a fixed 30 000 ms
 window. The clock is a parameter. Calls are taken one at a time; the
 source shares the map between coroutines without a lock.
 */
module Dedupe {

  const WindowMs: int := 30000

  type Cache = map<string, int>

  /** A key seen strictly less than one window ago. */
  predicate IsDuplicate(cache: Cache, key: string, now: int) {
    key in cache && now - cache[key] < WindowMs
  }

  /** The sweep `removeAll { (now - it.value) > window }`. */
  function Sweep(cache: Cache, now: int): (r: Cache)
    ensures forall k :: k in r <==> k in cache && now - cache[k] <= WindowMs
    ensures forall k :: k in r ==> r[k] == cache[k]
  {
    map k | k in cache && !(now - cache[k] > WindowMs) :: cache[k]
  }

  datatype Decision = Decision(accepted: bool, cache: Cache)

  /**
   The duplicate check, sweep and record of `processGmailNotification`:
   a duplicate leaves the table untouched; otherwise the table is swept and
   the key is stamped with `now`.
   */
  function CheckAndRecord(cache: Cache, key: string, now: int): (r: Decision)
    ensures !r.accepted <==> key in cache && now - cache[key] < WindowMs
    ensures !r.accepted ==> r.cache == cache
    ensures r.accepted ==> key in r.cache && r.cache[key] == now
    ensures r.accepted ==> forall k :: k != key ==>
              (k in r.cache <==> k in cache && now - cache[k] <= WindowMs)
    ensures r.accepted ==> forall k :: k in r.cache && k != key ==> r.cache[k] == cache[k]
    ensures r.accepted ==> forall k :: k in r.cache ==> now - r.cache[k] <= WindowMs
  {
    if IsDuplicate(cache, key, now) then Decision(false, cache)
    else Decision(true, Sweep(cache, now)[key := now])
  }

  /** A repeat strictly inside the window is dropped. */
  lemma RepeatWithinWindowIsDropped(cache: Cache, key: string, t0: int, t1: int)
    requires CheckAndRecord(cache, key, t0).accepted
    requires t1 - t0 < WindowMs
    ensures var d := CheckAndRecord(CheckAndRecord(cache, key, t0).cache, key, t1);
            !d.accepted && d.cache == CheckAndRecord(cache, key, t0).cache
  {
  }

  /** A repeat exactly one window (or more) later is accepted again. */
  lemma RepeatAfterWindowIsAccepted(cache: Cache, key: string, t0: int, t1: int)
    requires CheckAndRecord(cache, key, t0).accepted
    requires t1 - t0 >= WindowMs
    ensures CheckAndRecord(CheckAndRecord(cache, key, t0).cache, key, t1).accepted
  {
  }
}

=== FILE: http.dfy ===
/**
 The three ways a Retrofit call made by the app can end, seen from the
 caller: a response whose `isSuccessful` is true (with a possibly null
 body), a response whose `isSuccessful` is false (with a possibly null
 error body), or an exception thrown by the call (with a possibly null
 message). Responses are inputs to the model: nothing here talks to a
 network.
 */
module Http {
  import opened Nullable

  datatype Response<+B> =
    | Successful(body: Nullable<B>)
    | Unsuccessful(errorBody: Nullable<string>)
    | Threw(message: Nullable<string>)
}

=== FILE: notification_feed.dfy ===
/**
 The UI event sink: `NotificationViewModel` (an append-only list of
 `(title, text)` pairs shown on the notification screen) and the
 broadcast receiver in `MainActivity` that feeds it from the listener's
 local broadcasts.
 */
module NotificationFeed {
  import opened Nullable

  datatype Notification = Notification(title: string, text: string)

  type Feed = seq<Notification>

  /** `addNotification`: the new notification becomes the last element and nothing is dropped. */
  function AddNotification(feed: Feed, n: Notification): (r: Feed)
    ensures |r| == |feed| + 1
    ensures r[..|feed|] == feed
    ensures r[|feed|] == n
    ensures multiset(r)[n] == multiset(feed)[n] + 1
  {
    feed + [n]
  }

  /**
   The receiver's `onReceive`: a missing "title" or "text" extra becomes the
   empty string.
   */
  function OnReceive(feed: Feed, title: Nullable<string>, text: Nullable<string>): (r: Feed)
    ensures |r| == |feed| + 1 && r[..|feed|] == feed
    ensures r[|feed|].title == title.OrElse("") && r[|feed|].text == text.OrElse("")
  {
    AddNotification(feed, Notification(title.OrElse(""), text.OrElse("")))
  }

  /** Delivers broadcast events one by one, in order, each with both extras set. */
  function DeliverAll(feed: Feed, events: seq<Notification>): (r: Feed)
    ensures |r| == |feed| + |events|
    ensures r[..|feed|] == feed
    decreases |events|
  {
    if |events| == 0 then feed
    else DeliverAll(OnReceive(feed, NonNull(events[0].title), NonNull(events[0].text)), events[1..])
  }

  /** Delivering a batch of events appends exactly those events, in order. */
  lemma {:induction false} DeliverAllAppends(feed: Feed, events: seq<Notification>)
    ensures DeliverAll(feed, events) == feed + events
    decreases |events|
  {
    if |events| > 0 {
      var next := OnReceive(feed, NonNull(events[0].title), NonNull(events[0].text));
      assert next == feed + [events[0]];
      assert DeliverAll(feed, events) == DeliverAll(next, events[1..]);
      DeliverAllAppends(next, events[1..]);
      assert events == [events[0]] + events[1..];
      assert feed + [events[0]] + events[1..] == feed + events;
    }
  }

  /** There is no deduplication: the same pair added twice is stored twice. */
  lemma AddTwiceStoresTwice(feed: Feed, n: Notification)
    ensures var r := AddNotification(AddNotification(feed, n), n);
            |r| == |feed| + 2 && r[|feed|] == n && r[|feed| + 1] == n
            && multiset(r)[n] == multiset(feed)[n] + 2
  {
  }
}

=== FILE: notification_listener.dfy ===
/**
 The Gmail notification listener service: filter the posted notification,
 join its text fields, cut out the JSON candidate, undo `&quot;`, drop
 repeats inside the 30 000 ms window, gate on the stored account id,
 wrap the candidate in a request body, and turn the submission's outcome
 into one UI event.

 Coroutine launches run to completion in place; the clock, the
 SharedPreferences store and the backend's answer are parameters.
 */
module NotificationListener {
  import opened Nullable
  import opened Text
  import opened Http
  import opened Prefs
  import opened Dedupe
  import opened NotificationFeed

  const GmailPackage: string := "com.google.android.gm"
  const DebugTitle: string := "Notification Debug"
  const ProcessedTitle: string := "Transaction Processed"
  const ProcessedText: string := "Gmail transaction processed successfully"
  const FailedTitle: string := "Transaction Failed"
  const TestAction: string := "com.cs407.capstone.ACTION_TEST_NOTIFICATION"

  /**
   The fixed sample the test action feeds straight into the pipeline. It is
   the service's single literal, split into short pieces so that facts about
   its characters can be proved piece by piece.
   */
  const TestNotificationText: string :=
    "{\"accountId\":\"" + "test-id" + "\",\"transaction\":"
    + "{\"amt\":10.0," + "\"category\":\"shopping\"," + "\"merchant\":\"Test Merchant\"}" + "}"

  /** The parts of a `StatusBarNotification` the listener reads. */
  datatype PostedNotification = PostedNotification(
    packageName: string,
    title: Nullable<string>,
    text: Nullable<string>,
    bigText: Nullable<string>,
    subText: Nullable<string>,
    summaryText: Nullable<string>)

  // ---------------------------------------------------------------------
  // Text consolidation and source filter
  // ---------------------------------------------------------------------

  /**
   `"$title $text $bigText $subText $summaryText"`, each absent field read as
   the empty string: the five fields in order, separated by single spaces.
   */
  function Consolidate(n: PostedNotification): (r: string)
    ensures var t, x, b, s, m := n.title.OrElse(""), n.text.OrElse(""), n.bigText.OrElse(""),
                                 n.subText.OrElse(""), n.summaryText.OrElse("");
            var p1 := |t|; var p2 := p1 + 1 + |x|; var p3 := p2 + 1 + |b|; var p4 := p3 + 1 + |s|;
            && |r| == p4 + 1 + |m|
            && r[..p1] == t && r[p1] == ' '
            && r[p1 + 1..p2] == x && r[p2] == ' '
            && r[p2 + 1..p3] == b && r[p3] == ' '
            && r[p3 + 1..p4] == s && r[p4] == ' '
            && r[p4 + 1..] == m
  {
    var t, x, b, s, m := n.title.OrElse(""), n.text.OrElse(""), n.bigText.OrElse(""),
                         n.subText.OrElse(""), n.summaryText.OrElse("");
    t + " " + x + " " + b + " " + s + " " + m
  }

  /** Absent text fields and empty text fields consolidate alike. */
  lemma AbsentFieldIsEmpty(n: PostedNotification)
    ensures Consolidate(n) == Consolidate(PostedNotification(
              n.packageName, NonNull(n.title.OrElse("")), NonNull(n.text.OrElse("")),
              NonNull(n.bigText.OrElse("")), NonNull(n.subText.OrElse("")),
              NonNull(n.summaryText.OrElse(""))))
  {
  }

  datatype Filtered = Eligible(content: string) | Ignored(debug: Notification)

  /**
   The source filter of `onNotificationPosted`: only the Gmail package goes
   on to extraction; any other package yields the debug event instead.
   */
  function Filter(n: PostedNotification): (r: Filtered)
    ensures r.Eligible? <==> n.packageName == GmailPackage
    ensures r.Eligible? ==> r.content == Consolidate(n)
    ensures r.Ignored? ==>
              r.debug == Notification(DebugTitle, "Received notification from: " + n.packageName)
  {
    if n.packageName == GmailPackage then Eligible(Consolidate(n))
    else Ignored(Notification(DebugTitle, "Received notification from: " + n.packageName))
  }

  // ---------------------------------------------------------------------
  // Boundary extraction
  // ---------------------------------------------------------------------

  /**
   `jsonStart = indexOf("{")`, `jsonEnd = lastIndexOf("}") + 1`, no JSON when
   `jsonStart == -1 || jsonEnd <= jsonStart`, else `substring(jsonStart, jsonEnd)`.
   A candidate exists exactly when some `{` precedes some `}`; it is then the
   slice from the first `{` through the last `}`.
   */
  function ExtractJson(text: string): (r: Nullable<string>)
    ensures r.NonNull? <==>
              exists i, j :: 0 <= i < j < |text| && text[i] == '{' && text[j] == '}'
    ensures r.NonNull? ==> |r.value| >= 2 && r.value[0] == '{' && r.value[|r.value| - 1] == '}'
  {
    var jsonStart := IndexOf(text, '{');
    var jsonEnd := LastIndexOf(text, '}') + 1;
    if jsonStart == -1 || jsonEnd <= jsonStart then
      NoCandidateHasNoPair(text);
      Null
    else
      SliceRunsBraceToBrace(text, jsonStart, jsonEnd - 1);
      NonNull(text[jsonStart..jsonEnd])
  }

  /** The slice between the first `{` and the last `}` starts and ends with them. */
  lemma SliceRunsBraceToBrace(text: string, i: int, j: int)
    requires 0 <= i < j < |text|
    requires i == IndexOf(text, '{') && j == LastIndexOf(text, '}')
    ensures text[i..j + 1][0] == '{' && text[i..j + 1][j - i] == '}'
  {
    assert text[i] == '{' && text[j] == '}';
    assert text[i..j + 1][0] == text[i] && text[i..j + 1][j - i] == text[j];
  }

  /**
   When a `{` at `i` has no `{` before it and a `}` at `j > i` has no `}`
   after it, the candidate is exactly the slice from `i` through `j`.
   */
  lemma CandidateIsFirstOpenToLastClose(text: string, i: int, j: int)
    requires 0 <= i < j < |text| && text[i] == '{' && text[j] == '}'
    requires forall k :: 0 <= k < i ==> text[k] != '{'
    requires forall k :: j < k < |text| ==> text[k] != '}'
    ensures ExtractJson(text) == NonNull(text[i..j + 1])
  {
    IndexOfIsFirst(text, '{', i);
    LastIndexOfIsLast(text, '}', j);
  }

  /** When the guard rejects, no `{` precedes any `}`. */
  lemma NoCandidateHasNoPair(text: string)
    requires IndexOf(text, '{') == -1 || LastIndexOf(text, '}') + 1 <= IndexOf(text, '{')
    ensures !exists i, j :: 0 <= i < j < |text| && text[i] == '{' && text[j] == '}'
  {
    forall i, j | 0 <= i < j < |text| && text[i] == '{' && text[j] == '}'
      ensures false
    {
      IndexOfIsFirst(text, '{', i);
      LastIndexOfIsLast(text, '}', j);
    }
  }

  /** A closing brace before the only opening brace is not a candidate. */
  lemma ReversedBracesHaveNoCandidate()
    ensures ExtractJson("}{") == Null
  {
    assert "}{"[0] == '}' && "}{"[1] == '{';
  }

  // ---------------------------------------------------------------------
  // Cleaning `&quot;`
  // ---------------------------------------------------------------------

  const Quot: string := "&quot;"

  predicate QuotAt(s: string, i: int) {
    0 <= i && i + 6 <= |s| && s[i..i + 6] == Quot
  }

  predicate ContainsQuot(s: string) {
    exists i :: 0 <= i <= |s| && QuotAt(s, i)
  }

  /** `replace("&quot;", "\"")`: a left-to-right scan over non-overlapping matches. */
  function Clean(s: string): (r: string)
    ensures |r| <= |s|
    decreases |s|
  {
    if |s| == 0 then ""
    else if QuotAt(s, 0) then "\"" + Clean(s[6..])
    else [s[0]] + Clean(s[1..])
  }

  /**
   The replacement itself: text in which no `&quot;` starts is copied, the
   first `&quot;` becomes `"`, and the rest is cleaned in turn.
   */
  lemma {:induction false} CleanReplacesFirstQuot(a: string, b: string)
    requires forall i :: 0 <= i < |a| ==> !QuotAt(a + Quot + b, i)
    ensures Clean(a + Quot + b) == a + "\"" + Clean(b)
    decreases |a|
  {
    var s := a + Quot + b;
    if |a| == 0 {
      assert s == Quot + b;
      assert s[0..6] == Quot;
      assert s[6..] == b;
    } else {
      assert !QuotAt(s, 0);
      assert s[1..] == a[1..] + Quot + b;
      forall i | 0 <= i < |a[1..]| ensures !QuotAt(a[1..] + Quot + b, i) {
        assert !QuotAt(s, i + 1);
        assert s[i + 1..i + 7] == s[1..][i..i + 6];
      }
      CleanReplacesFirstQuot(a[1..], b);
      assert a == [a[0]] + a[1..];
    }
  }

  /** An `&` ahead of the `&quot;`, as in a merchant named `H&M`, is kept as it is. */
  lemma AmpersandBeforeQuotIsKept()
    ensures Clean("H&M" + Quot + "}") == "H&M\"}"
  {
    var s := "H&M" + Quot + "}";
    forall i | 0 <= i < 3 ensures !QuotAt(s, i) {
      assert s[i..i + 6][1] == s[i + 1] && s[i + 1] != Quot[1];
    }
    CleanReplacesFirstQuot("H&M", "}");
    assert !QuotAt("}", 0);
    assert Clean("}") == "}" + Clean("");
  }

  /** A prefix of the cleaned text free of `"` was copied from the input unchanged. */
  lemma {:induction false} CleanCopiesQuoteFreePrefix(t: string, k: nat)
    requires k <= |Clean(t)| && '"' !in Clean(t)[..k]
    ensures k <= |t| && t[..k] == Clean(t)[..k]
    decreases |t|
  {
    if k > 0 {
      if QuotAt(t, 0) {
        HeadInPrefix(Clean(t), k);
      } else {
        var rest := Clean(t[1..]);
        assert Clean(t) == [t[0]] + rest;
        assert Clean(t)[..k] == [t[0]] + rest[..k - 1];
        assert '"' !in rest[..k - 1] by {
          forall c | c in rest[..k - 1] ensures c in Clean(t)[..k] { }
        }
        CleanCopiesQuoteFreePrefix(t[1..], k - 1);
        assert t[..k] == [t[0]] + t[1..][..k - 1];
      }
    }
  }

  lemma HeadInPrefix(s: string, k: nat)
    requires 0 < k <= |s|
    ensures s[0] in s[..k]
  {
    assert s[..k][0] == s[0];
  }

  lemma QuotStartsWithAmpersand(s: string, i: int)
    requires QuotAt(s, i)
    ensures s[i] == '&'
  {
    assert s[i..i + 6][0] == s[i];
  }

  /** The cleaned text holds no `&quot;`. */
  lemma {:induction false} CleanRemovesEveryQuot(s: string)
    ensures !ContainsQuot(Clean(s))
    decreases |s|
  {
    if |s| > 0 {
      if QuotAt(s, 0) {
        CleanRemovesEveryQuot(s[6..]);
        QuoteThenQuotFree(Clean(s[6..]));
      } else {
        CleanRemovesEveryQuot(s[1..]);
        CopiedThenQuotFree(s);
      }
    }
  }

  /** An occurrence past the first character is an occurrence in the tail. */
  lemma QuotInTail(c: char, rest: string, i: int)
    requires QuotAt([c] + rest, i) && i > 0
    ensures QuotAt(rest, i - 1)
  {
    assert ([c] + rest)[i..i + 6] == rest[i - 1..i + 5];
  }

  /** A `"` in front of quot-free text leaves it quot-free. */
  lemma QuoteThenQuotFree(rest: string)
    requires !ContainsQuot(rest)
    ensures !ContainsQuot("\"" + rest)
  {
    var r := "\"" + rest;
    assert r == ['"'] + rest;
    forall i | 0 <= i <= |r| && QuotAt(r, i) ensures false {
      if i == 0 {
        QuotStartsWithAmpersand(r, 0);
      } else {
        QuotInTail('"', rest, i);
      }
    }
  }

  /** A copied first character in front of the cleaned tail cannot start a new `&quot;`. */
  lemma CopiedThenQuotFree(s: string)
    requires |s| > 0 && !QuotAt(s, 0) && !ContainsQuot(Clean(s[1..]))
    ensures !ContainsQuot([s[0]] + Clean(s[1..]))
  {
    var rest := Clean(s[1..]);
    var r := [s[0]] + rest;
    forall i | 0 <= i <= |r| && QuotAt(r, i) ensures false {
      if i == 0 {
        assert rest[..5] == r[1..6] == Quot[1..];
        CleanCopiesQuoteFreePrefix(s[1..], 5);
      } else {
        QuotInTail(s[0], rest, i);
      }
    }
  }

  /** Text without `&quot;` is left as it is. */
  lemma {:induction false} CleanKeepsQuotFreeText(s: string)
    requires !ContainsQuot(s)
    ensures Clean(s) == s
    decreases |s|
  {
    if |s| > 0 {
      assert !QuotAt(s, 0);
      forall i | QuotAt(s[1..], i) ensures false {
        assert s[1..][i..i + 6] == s[i + 1..i + 7];
        assert QuotAt(s, i + 1);
      }
      CleanKeepsQuotFreeText(s[1..]);
      assert s == [s[0]] + s[1..];
    }
  }

  /** Cleaning twice is cleaning once. */
  lemma CleanIsIdempotent(s: string)
    ensures Clean(Clean(s)) == Clean(s)
  {
    CleanRemovesEveryQuot(s);
    CleanKeepsQuotFreeText(Clean(s));
  }

  /** Text without `&` has nothing to replace. */
  lemma NoAmpersandNoQuot(s: string)
    requires '&' !in s
    ensures !ContainsQuot(s)
  {
    forall i | 0 <= i <= |s| && QuotAt(s, i) ensures false {
      QuotStartsWithAmpersand(s, i);
    }
  }

  /** The dedupe key and request payload: the extracted slice with `&quot;` undone. */
  function Candidate(text: string): (r: Nullable<string>)
    ensures r.NonNull? <==> ExtractJson(text).NonNull?
    ensures r.NonNull? ==> !ContainsQuot(r.value)
  {
    match ExtractJson(text)
    case Null => Null
    case NonNull(raw) =>
      CleanRemovesEveryQuot(raw);
      NonNull(Clean(raw))
  }

  // ---------------------------------------------------------------------
  // Request construction and outcome mapping
  // ---------------------------------------------------------------------

  const BodyHead: string := "{\"accountId\":\""
  const BodyMid: string := "\",\"transaction\":"

  /**
   `"{\"accountId\":\"$accountId\",\"transaction\":$jsonString}"`: the account id
   is inserted without escaping and the candidate verbatim.
   */
  function RequestBody(accountId: string, json: string): (r: string)
    ensures |r| == |BodyHead| + |accountId| + |BodyMid| + |json| + 1
    ensures r[..|BodyHead|] == BodyHead && r[|r| - 1] == '}'
  {
    BodyHead + accountId + BodyMid + json + "}"
  }

  /**
   Splits `<id>","transaction":<payload>` at the first `"`.
   */
  function SplitIdAndPayload(rest: string): (r: Nullable<(string, string)>)
    ensures r.NonNull? ==> '"' !in r.value.0 && r.value.0 + BodyMid + r.value.1 == rest
  {
    var q := IndexOf(rest, '"');
    if q == -1 || |rest| - q < |BodyMid| || rest[q..q + |BodyMid|] != BodyMid then Null
    else
      assert rest == rest[..q] + rest[q..q + |BodyMid|] + rest[q + |BodyMid|..];
      NonNull((rest[..q], rest[q + |BodyMid|..]))
  }

  /**
   Reads a request body back into its account id (up to the first `"` after
   the head) and its transaction payload.
   */
  function ParseRequestBody(body: string): (r: Nullable<(string, string)>)
    ensures r.NonNull? ==> '"' !in r.value.0 && RequestBody(r.value.0, r.value.1) == body
  {
    if |body| < |BodyHead| + 1 || body[..|BodyHead|] != BodyHead || body[|body| - 1] != '}' then Null
    else
      var parts := SplitIdAndPayload(body[|BodyHead|..|body| - 1]);
      if parts.Null? then Null
      else
        BodyFromParts(body, parts.value.0, parts.value.1);
        parts
  }

  lemma BodyFromParts(body: string, accountId: string, json: string)
    requires |body| >= |BodyHead| + 1 && body[..|BodyHead|] == BodyHead && body[|body| - 1] == '}'
    requires accountId + BodyMid + json == body[|BodyHead|..|body| - 1]
    ensures RequestBody(accountId, json) == body
  {
    assert body == body[..|BodyHead|] + body[|BodyHead|..|body| - 1] + [body[|body| - 1]];
  }

  /** An account id without `"` and the payload are recovered from the body unchanged. */
  lemma RequestBodyRoundTrip(accountId: string, json: string)
    requires '"' !in accountId
    ensures ParseRequestBody(RequestBody(accountId, json)) == NonNull((accountId, json))
  {
    var body := RequestBody(accountId, json);
    var rest := body[|BodyHead|..|body| - 1];
    assert rest == accountId + BodyMid + json;
    assert rest[|accountId|] == '"';
    assert rest[..|accountId|] == accountId;
    assert IndexOf(rest, '"') == |accountId| by {
      IndexOfIsFirst(rest, '"', |accountId|);
    }
    assert rest[|accountId|..|accountId| + |BodyMid|] == BodyMid;
    assert rest[|accountId| + |BodyMid|..] == json;
  }

  /** Because the id is not escaped, two different requests can share one body. */
  lemma UnescapedIdIsAmbiguous()
    ensures RequestBody("a", "{}" + BodyMid + "{}") == RequestBody("a" + BodyMid + "{}", "{}")
  {
  }

  /** The single UI event a finished submission produces. */
  function OutcomeEvent(response: Response<()>): (r: Notification)
    ensures r.title == ProcessedTitle <==> response.Successful?
    ensures response.Successful? ==> r.text == ProcessedText
    ensures response.Unsuccessful? ==>
              r.title == FailedTitle && r.text == "Error: " + Template(response.errorBody)
    ensures response.Threw? ==>
              r.title == FailedTitle && r.text == "Exception: " + Template(response.message)
  {
    match response
    case Successful(_) => Notification(ProcessedTitle, ProcessedText)
    case Unsuccessful(errorBody) => Notification(FailedTitle, "Error: " + Template(errorBody))
    case Threw(message) => Notification(FailedTitle, "Exception: " + Template(message))
  }

  // ---------------------------------------------------------------------
  // The pipeline
  // ---------------------------------------------------------------------

  datatype PipelineResult = NoJson | Duplicate | NoAccount | Request(body: string)

  datatype Step = Step(result: PipelineResult, recentRequests: Cache, events: seq<Notification>)

  /**
   `processGmailNotification`: extract and clean, dedupe (recording the key
   before the account check), read "account_id", build the body and map the
   submission's answer to one UI event.
   */
  function ProcessGmailNotification(cache: Cache, text: string, now: int,
                                    prefs: Store, response: Response<()>): (r: Step)
    ensures r.result.NoJson? <==> Candidate(text).Null?
    ensures r.result.NoJson? ==> r.recentRequests == cache
    ensures r.result.Duplicate? <==>
              Candidate(text).NonNull? && IsDuplicate(cache, Candidate(text).value, now)
    ensures r.result.Duplicate? ==> r.recentRequests == cache
    ensures r.result.NoAccount? || r.result.Request? ==>
              r.recentRequests == CheckAndRecord(cache, Candidate(text).value, now).cache
    ensures r.result.NoAccount? <==>
              Candidate(text).NonNull? && !IsDuplicate(cache, Candidate(text).value, now)
              && GetString(prefs, AccountIdKey, Null).Null?
    ensures r.result.Request? ==>
              && GetString(prefs, AccountIdKey, Null).NonNull?
              && r.result.body == RequestBody(GetString(prefs, AccountIdKey, Null).value,
                                              Candidate(text).value)
    ensures r.result.Request? ==> r.events == [OutcomeEvent(response)]
    ensures !r.result.Request? ==> r.events == []
  {
    match Candidate(text)
    case Null => Step(NoJson, cache, [])
    case NonNull(json) =>
      var d := CheckAndRecord(cache, json, now);
      if !d.accepted then Step(Duplicate, cache, [])
      else
        match GetString(prefs, AccountIdKey, Null)
        case Null => Step(NoAccount, d.cache, [])
        case NonNull(accountId) =>
          Step(Request(RequestBody(accountId, json)), d.cache, [OutcomeEvent(response)])
  }

  /**
   A repeat of an accepted candidate inside the window is dropped, even when
   the first delivery stopped at the missing account id.
   */
  lemma RepeatDroppedEvenWithoutAccount(cache: Cache, text: string, t0: int, t1: int,
                                        prefs0: Store, prefs1: Store,
                                        resp0: Response<()>, resp1: Response<()>)
    requires var r0 := ProcessGmailNotification(cache, text, t0, prefs0, resp0);
             r0.result.NoAccount? || r0.result.Request?
    requires t1 - t0 < WindowMs
    ensures var r0 := ProcessGmailNotification(cache, text, t0, prefs0, resp0);
            var r1 := ProcessGmailNotification(r0.recentRequests, text, t1, prefs1, resp1);
            r1.result.Duplicate? && r1.events == [] && r1.recentRequests == r0.recentRequests
  {
  }

  /** A repeat exactly one window later reaches the backend again when an account is stored. */
  lemma RepeatAfterWindowIsSubmitted(cache: Cache, text: string, t0: int, t1: int,
                                     prefs0: Store, prefs1: Store,
                                     resp0: Response<()>, resp1: Response<()>)
    requires ProcessGmailNotification(cache, text, t0, prefs0, resp0).result.Request?
    requires t1 - t0 >= WindowMs
    requires GetString(prefs1, AccountIdKey, Null).NonNull?
    ensures var r0 := ProcessGmailNotification(cache, text, t0, prefs0, resp0);
            ProcessGmailNotification(r0.recentRequests, text, t1, prefs1, resp1).result.Request?
  {
  }

  // ---------------------------------------------------------------------
  // Service entry points
  // ---------------------------------------------------------------------

  datatype Reaction = Reaction(recentRequests: Cache, events: seq<Notification>)

  /** `onNotificationPosted`: Gmail goes through the pipeline, anything else is reported. */
  function OnNotificationPosted(cache: Cache, n: PostedNotification, now: int,
                                prefs: Store, response: Response<()>): (r: Reaction)
    ensures n.packageName != GmailPackage ==>
              r == Reaction(cache, [Notification(DebugTitle, "Received notification from: " + n.packageName)])
    ensures n.packageName == GmailPackage ==>
              var s := ProcessGmailNotification(cache, Consolidate(n), now, prefs, response);
              r == Reaction(s.recentRequests, s.events)
  {
    match Filter(n)
    case Ignored(debug) => Reaction(cache, [debug])
    case Eligible(content) =>
      var s := ProcessGmailNotification(cache, content, now, prefs, response);
      Reaction(s.recentRequests, s.events)
  }

  /** `onStartCommand`: the test action runs the pipeline on the fixed sample, bypassing the filter. */
  function OnStartCommand(cache: Cache, action: Nullable<string>, now: int,
                          prefs: Store, response: Response<()>): (r: Reaction)
    ensures action != NonNull(TestAction) ==> r == Reaction(cache, [])
    ensures action == NonNull(TestAction) ==>
              var s := ProcessGmailNotification(cache, TestNotificationText, now, prefs, response);
              r == Reaction(s.recentRequests, s.events)
  {
    if action == NonNull(TestAction) then
      var s := ProcessGmailNotification(cache, TestNotificationText, now, prefs, response);
      Reaction(s.recentRequests, s.events)
    else Reaction(cache, [])
  }

  /** Text that is its own candidate, not seen recently, is submitted verbatim. */
  lemma WholeCandidateIsSubmitted(cache: Cache, text: string, now: int, prefs: Store, response: Response<()>)
    requires Candidate(text) == NonNull(text)
    requires GetString(prefs, AccountIdKey, Null).NonNull?
    requires !IsDuplicate(cache, text, now)
    ensures var r := ProcessGmailNotification(cache, text, now, prefs, response);
            && r.recentRequests[text] == now
            && r.events == [OutcomeEvent(response)]
            && r.result == Request(RequestBody(GetString(prefs, AccountIdKey, Null).value, text))
  {
  }

  /**
   The sample has no `&quot;` and runs from its first to its last character,
   so it is its own candidate: the body sent for it nests the sample's own
   `accountId`/`transaction` wrapper inside a second one.
   */
  lemma TestSampleIsWholeCandidate()
    ensures Candidate(TestNotificationText) == NonNull(TestNotificationText)
  {
    BracedTextIsOwnCandidate(TestNotificationText);
  }

  /** Text that opens with `{`, closes with `}` and has no `&` is its own candidate. */
  lemma BracedTextIsOwnCandidate(s: string)
    requires |s| >= 2 && s[0] == '{' && s[|s| - 1] == '}' && '&' !in s
    ensures Candidate(s) == NonNull(s)
  {
    CandidateIsFirstOpenToLastClose(s, 0, |s| - 1);
    assert s[0..|s|] == s;
    NoAmpersandNoQuot(s);
    CleanKeepsQuotFreeText(s);
  }

  /** What the service is handed on each `onNotificationPosted` call, with its environment. */
  datatype Arrival = Arrival(n: PostedNotification, now: int, prefs: Store, response: Response<()>)

  /** The service over a sequence of posted notifications, one at a time. */
  function Listen(cache: Cache, arrivals: seq<Arrival>): (r: Reaction)
    ensures |r.events| <= |arrivals|
    decreases |arrivals|
  {
    if |arrivals| == 0 then Reaction(cache, [])
    else
      var a := arrivals[0];
      var first := OnNotificationPosted(cache, a.n, a.now, a.prefs, a.response);
      var rest := Listen(first.recentRequests, arrivals[1..]);
      Reaction(rest.recentRequests, first.events + rest.events)
  }

  /** One posted notification never evicts a stamp younger than the window. */
  lemma PostingKeepsYoungStamp(cache: Cache, key: string, t0: int, a: Arrival)
    requires key in cache && cache[key] == t0 && a.now - t0 < WindowMs
    ensures var r := OnNotificationPosted(cache, a.n, a.now, a.prefs, a.response).recentRequests;
            key in r && r[key] == t0
  {
  }

  /**
   A candidate stamped at `t0` keeps its stamp through any sequence of
   notifications that all arrive strictly inside its window.
   */
  lemma {:induction false} StampSurvivesListening(cache: Cache, key: string, t0: int, arrivals: seq<Arrival>)
    requires key in cache && cache[key] == t0
    requires forall i :: 0 <= i < |arrivals| ==> arrivals[i].now - t0 < WindowMs
    ensures var r := Listen(cache, arrivals).recentRequests; key in r && r[key] == t0
    decreases |arrivals|
  {
    if |arrivals| > 0 {
      var a := arrivals[0];
      PostingKeepsYoungStamp(cache, key, t0, a);
      var next := OnNotificationPosted(cache, a.n, a.now, a.prefs, a.response).recentRequests;
      assert forall i :: 0 <= i < |arrivals[1..]| ==> arrivals[1..][i] == arrivals[i + 1];
      StampSurvivesListening(next, key, t0, arrivals[1..]);
    }
  }

  /**
   Once a Gmail notification's candidate passes dedupe at `t0`, the same
   notification arriving again at `t1` inside the window is dropped as a
   duplicate, whatever was posted in between inside the window, and whether
   or not an account was stored.
   */
  lemma {:induction false} RepostInsideWindowIsDropped(cache: Cache, key: string, first: Arrival, between: seq<Arrival>,
                                    t1: int, prefs1: Store, response1: Response<()>)
    requires first.n.packageName == GmailPackage
    requires Candidate(Consolidate(first.n)) == NonNull(key) && !IsDuplicate(cache, key, first.now)
    requires forall i :: 0 <= i < |between| ==> between[i].now - first.now < WindowMs
    requires t1 - first.now < WindowMs
    ensures var c0 := OnNotificationPosted(cache, first.n, first.now, first.prefs, first.response);
            var c := Listen(c0.recentRequests, between).recentRequests;
            var r := ProcessGmailNotification(c, Consolidate(first.n), t1, prefs1, response1);
            r.result.Duplicate? && r.events == []
  {
    var c0 := OnNotificationPosted(cache, first.n, first.now, first.prefs, first.response).recentRequests;
    AcceptedPostingStampsCandidate(cache, key, first);
    StampSurvivesListening(c0, key, first.now, between);
    var c := Listen(c0, between).recentRequests;
    StampedCandidateIsDuplicate(c, Consolidate(first.n), key, first.now, t1, prefs1, response1);
  }

  /** An accepted Gmail posting stamps its candidate with the arrival time. */
  lemma AcceptedPostingStampsCandidate(cache: Cache, key: string, a: Arrival)
    requires a.n.packageName == GmailPackage
    requires Candidate(Consolidate(a.n)) == NonNull(key) && !IsDuplicate(cache, key, a.now)
    ensures var c := OnNotificationPosted(cache, a.n, a.now, a.prefs, a.response).recentRequests;
            key in c && c[key] == a.now
  {
  }

  /** Text whose candidate carries a stamp younger than the window is a duplicate. */
  lemma StampedCandidateIsDuplicate(cache: Cache, text: string, key: string, t0: int, now: int,
                                    prefs: Store, response: Response<()>)
    requires Candidate(text) == NonNull(key) && key in cache && cache[key] == t0
    requires now - t0 < WindowMs
    ensures var r := ProcessGmailNotification(cache, text, now, prefs, response);
            r.result.Duplicate? && r.events == []
  {
  }
}

=== FILE: nullable.dfy ===
/**
 Kotlin's nullable types (`T?`) and the two operators the app applies to
 them: the elvis operator `?:` and string templates, which render a null
 reference as the four letters "null".
 */
module Nullable {

  datatype Nullable<+T> = Null | NonNull(value: T) {

    /** `x ?: fallback` */
    function OrElse(fallback: T): (r: T)
      ensures NonNull? ==> r == value
      ensures Null? ==> r == fallback
    {
      match this
      case NonNull(v) => v
      case Null => fallback
    }
  }

  /** The text a Kotlin string template `"${x}"` produces for a `String?`. */
  function Template(x: Nullable<string>): (r: string)
    ensures x.NonNull? ==> r == x.value
    ensures x.Null? ==> r == "null"
  {
    x.OrElse("null")
  }
}

=== FILE: prefs.dfy ===
/**
 The "account_prefs" SharedPreferences file that the account screen writes
 and the notification listener reads, as a map from key to typed value.
 Writes through `edit() ... apply()` become map updates; the asynchronous
 commit to disk is not modelled.
 */
module Prefs {
  import opened Nullable

  datatype PrefValue =
    | StringPref(str: string)
    | FloatPref(num: real)
    | BooleanPref(flag: bool)

  type Store = map<string, PrefValue>

  const AccountIdKey: string := "account_id"
  const UsernameKey: string := "username"
  const PhoneNumberKey: string := "phone_number"
  const FraudThresholdKey: string := "fraud_threshold"
  const IsLoggedInKey: string := "is_logged_in"

  /** `getString(key, default)`; a value stored under another type reads as absent. */
  function GetString(store: Store, key: string, default: Nullable<string>): (r: Nullable<string>)
    ensures key in store && store[key].StringPref? ==> r == NonNull(store[key].str)
    ensures !(key in store && store[key].StringPref?) ==> r == default
  {
    if key in store && store[key].StringPref? then NonNull(store[key].str) else default
  }

  /** `getBoolean(key, default)`; a value stored under another type reads as absent. */
  function GetBoolean(store: Store, key: string, default: bool): (r: bool)
    ensures key in store && store[key].BooleanPref? ==> r == store[key].flag
    ensures !(key in store && store[key].BooleanPref?) ==> r == default
  {
    if key in store && store[key].BooleanPref? then store[key].flag else default
  }

  /** `getFloat(key, default)`; a value stored under another type reads as absent. */
  function GetFloat(store: Store, key: string, default: real): (r: real)
    ensures key in store && store[key].FloatPref? ==> r == store[key].num
    ensures !(key in store && store[key].FloatPref?) ==> r == default
  {
    if key in store && store[key].FloatPref? then store[key].num else default
  }

  /** `edit().clear().apply()` */
  function Clear(store: Store): (r: Store)
    ensures forall key :: GetString(r, key, Null) == Null
    ensures forall key, d :: GetBoolean(r, key, d) == d
  {
    map[]
  }
}

=== FILE: text.dfy ===
/**
 The few `kotlin.String` operations the app relies on, over `seq<char>`.
 */
module Text {

  /**
   Kotlin's `Char.isWhitespace()` on the JVM: `Character.isWhitespace(c)`
   or `Character.isSpaceChar(c)`. Listed by code point: the ASCII controls
   TAB..CR and FS..US, SPACE, NO-BREAK SPACE, OGHAM SPACE MARK, the spaces
   U+2000..U+200A, LINE and PARAGRAPH SEPARATOR, NARROW NO-BREAK SPACE,
   MEDIUM MATHEMATICAL SPACE and IDEOGRAPHIC SPACE.
   */
  predicate IsWhitespace(c: char) {
    var n := c as int;
    || 0x09 <= n <= 0x0D
    || 0x1C <= n <= 0x20
    || n == 0xA0
    || n == 0x1680
    || 0x2000 <= n <= 0x200A
    || n == 0x2028 || n == 0x2029
    || n == 0x202F || n == 0x205F || n == 0x3000
  }

  /** `CharSequence.isBlank()`: empty, or whitespace only. */
  predicate IsBlank(s: string) {
    forall i :: 0 <= i < |s| ==> IsWhitespace(s[i])
  }

  /** `String.indexOf(c)`: the first position of `c`, or -1 when there is none. */
  function IndexOf(s: string, c: char): (r: int)
    ensures -1 <= r < |s|
    ensures r == -1 <==> c !in s
    ensures 0 <= r ==> s[r] == c && forall j :: 0 <= j < r ==> s[j] != c
  {
    if |s| == 0 then -1
    else if s[0] == c then 0
    else
      var k := IndexOf(s[1..], c);
      assert s == [s[0]] + s[1..];
      if k == -1 then -1 else k + 1
  }

  /** `String.lastIndexOf(c)`: the last position of `c`, or -1 when there is none. */
  function LastIndexOf(s: string, c: char): (r: int)
    ensures -1 <= r < |s|
    ensures r == -1 <==> c !in s
    ensures 0 <= r ==> s[r] == c && c !in s[r + 1..]
  {
    if |s| == 0 then -1
    else if s[|s| - 1] == c then |s| - 1
    else
      var k := LastIndexOf(s[..|s| - 1], c);
      assert s == s[..|s| - 1] + [s[|s| - 1]];
      if k == -1 then -1
      else
        assert s[k + 1..] == s[..|s| - 1][k + 1..] + [s[|s| - 1]];
        k
  }

  /** Every occurrence of `c` lies at or after the first one. */
  lemma IndexOfIsFirst(s: string, c: char, i: int)
    requires 0 <= i < |s| && s[i] == c
    ensures 0 <= IndexOf(s, c) <= i
  {
  }

  /** Every occurrence of `c` lies at or before the last one. */
  lemma LastIndexOfIsLast(s: string, c: char, j: int)
    requires 0 <= j < |s| && s[j] == c
    ensures j <= LastIndexOf(s, c)
  {
  }
}
